=== FILE: README.md ===
# edh-timer: the player timers, modelled in Dafny

edh-timer is a single-page app that keeps one chess-clock-style timer per
player of a game. The page component (`src/App.tsx`) owns four things:
- the ordered list of players, each with an id, a name and elapsed whole seconds;
- the id of the one running player, if any;
- the copy of the list last written to local storage;
- the displayed total.

Each player component (`src/Player.tsx`) keeps its own local copy of its
time. The copy is seeded from the stored time. While its player is the
active one, the component advances the copy once a second and reports each
new value back to the page.

This project models that core as immutable data and pure transition
functions. It proves the properties the code promises.

- `Wrappers`: `Option`.
- `Decimal`: how a template literal renders an integer (`${n}`), with the
  inverse reading of digit strings.
- `Clock`: `formatTime`, shared by both components, with the parser that
  reads its output back.
- `Roster`: the `PlayerData` record and the list operations the page's
  handlers apply, with `Sum` as the reference definition of the total.
- `PlayerTimer`: the player component's own state. This covers mounting
  from the stored entry, one firing of the one-second interval, and the
  reset effect.
- `App`: the page's state (`players`, `active`, `stored`, `total`) and one
  function per handler. It includes the well-formedness predicate `Valid`,
  which every handler keeps, and `Tick`, one second of play. The short
  sessions at the end are written generically over the drawn ids.

The model follows the code as written in these places:
- Starting a player stores the pressed id even when it is not in the list.
  `StartStopValid` asks for a listed id.
- `TimeUpdate` accepts any integer time, as `handleTimeUpdate` accepts
  any number. Non-negativity is kept by every path the application takes,
  and the `*Valid` lemmas show this.
- A saved list of well-typed records is used as it is, with no further
  validation (ids need not be distinct, times need not be non-negative).
- The tick adds one to the stored time of the running entry, where the
  component adds one to its local `prevTime`. The two are the same number:
  a component's local time is seeded from the stored time when it mounts
  (`PlayerTimer.Mount`). When ids are distinct (every list the application
  itself writes), only that component reports times for its id after that,
  and every report it makes also sets its local time to the same value. A
  reset mounts new components under new ids. So the local time of every
  mounted component equals its entry's stored time. The model uses
  this identification rather than keeping a local time per component.
  `App.TickIsIntervalReport` shows that a firing keeps the two equal.
- Fresh uuids are parameters. Their distinctness is a hypothesis of the
  lemmas that need it.

## Model

The helpers `Clock.JsRem` (JavaScript's `%`, src/App.tsx:52) and `Roster.FoldTime` and `Roster.TotalTime` (the reduce, src/App.tsx:47) have no row of their own. Their meaning is stated by the rows for `Clock.JsRemMultiple`, `Roster.FoldTimeIsSum` and `Roster.TotalTimeIsSum`.

| member | source | states |
|---|---|---|
| `Decimal.NatToString` | src/App.tsx:53 | a natural number renders as a non-empty run of digits with no leading zero, and 0 renders as "0" |
| `Decimal.IntToString` | src/App.tsx:53 | an integer renders non-empty; it is all digits exactly when non-negative, and then those digits read back as the number; it starts with '-' exactly when negative, and then the digits after the sign read back as the magnitude; there is never a leading zero, and 0 renders as "0" |
| `Decimal.ValueOfNatToString` | src/App.tsx:53 | reading the rendering of n back as a decimal gives n again |
| `Decimal.NatToStringInjective` | src/App.tsx:53 | different numbers never render as the same text |
| `Clock.Split` | src/App.tsx:50-52 | for every s the minutes m are the floor of s/60 (m*60 <= s < m*60 + 60); for s >= 0 the leftover r satisfies m*60 + r == s and 0 <= r < 60; for s < 0 JavaScript's truncating % gives -60 < r <= 0 with s - r a multiple of 60, which fixes r |
| `Clock.JsRemMultiple` | src/App.tsx:52 | JavaScript's remainder by 60 is Dafny's for a non-negative dividend; for a negative one it lies in (-60, 0] and differs from the dividend by a multiple of 60 |
| `Clock.FormatTime` | src/App.tsx:50-54 | a non-negative time is shown as the decimal minutes, "m ", the decimal leftover seconds, "s" |
| `Clock.ParseFormatTime` | src/App.tsx:50-54 | reading the shown text back gives exactly the number of seconds, so the display loses nothing |
| `Clock.FormatTimeInjective` | src/Player.tsx:93-97 | two different non-negative times are never shown the same; the player's formatter is the same function as the page's |
| `Clock.SplitAddsUp` | src/App.tsx:50-54 | the two parts add up to the time for every non-negative time, and for a negative time exactly when it is a whole number of minutes; -1 is shown as "-1m -1s" |
| `Roster.PlayerName` | src/App.tsx:103 | the generated name is "Player " followed by digits that read back as n |
| `Roster.DefaultPlayers` | src/App.tsx:33-38 | the default list is four entries carrying the drawn ids in order, named "Player 1" to "Player 4", each at 0 |
| `Roster.DefaultIsFourAdditions` | src/App.tsx:33-38 | the default list equals four additions to an empty list, so its names follow the same rule as addPlayer |
| `Roster.DefaultDistinct` | src/App.tsx:34-37 | four distinct drawn ids give a list with distinct ids |
| `Roster.DefaultZero` | src/App.tsx:34-37 | the default list has no negative time and sums to 0 |
| `Roster.Append` | src/App.tsx:101-104 | the new list is the old one unchanged plus one last entry with the new id, the name "Player n+1" and time 0 |
| `Roster.AppendKeepsInvariants` | src/App.tsx:99-108 | an id not yet listed keeps ids distinct; times stay non-negative; the sum is unchanged |
| `Roster.Remove` | src/App.tsx:112 | the filter never grows the list and leaves no entry with the removed id |
| `Roster.RemoveMembers` | src/App.tsx:112 | an entry survives exactly when it was listed and its id differs from the removed one |
| `Roster.RemoveConcat` | src/App.tsx:112 | filtering a concatenation filters each part and keeps them in order, so survivors keep their relative order |
| `Roster.RemoveAbsent` | src/App.tsx:112 | removing an id that is not listed leaves the list unchanged |
| `Roster.RemoveAt` | src/App.tsx:112 | with distinct ids, removing the id at position k deletes exactly that position and closes the gap |
| `Roster.RemoveDistinct` | src/App.tsx:112 | removal keeps ids distinct |
| `Roster.RemoveKeepsInvariants` | src/App.tsx:110-115 | removal keeps ids distinct and times non-negative, and the removed id is gone |
| `Roster.SetTime` | src/App.tsx:81-83 | same length, ids and names; the matching entries get the new time and every other time is unchanged |
| `Roster.SetTimeSum` | src/App.tsx:79-87 | with distinct ids, setting the time at position k replaces just that entry and moves the sum by the change of that one time |
| `Roster.SetTimeNoChange` | src/App.tsx:81-83 | if every matching entry already has the time, the list is unchanged |
| `Roster.SetTimeAbsent` | src/App.tsx:81-83 | an id that is not listed is a no-op |
| `Roster.SetTimeTwice` | src/App.tsx:79-87 | a second update of the same id overrides the first |
| `Roster.SetTimeKeepsInvariants` | src/App.tsx:79-87 | setting a time keeps ids distinct; a non-negative time keeps all times non-negative |
| `Roster.Rename` | src/App.tsx:91-93 | same length, ids and times; the matching entries get the new name, which may be any string, including empty; other names are unchanged |
| `Roster.RenameKeepsInvariants` | src/App.tsx:89-97 | renaming keeps ids distinct and times non-negative |
| `Roster.RenameAbsent` | src/App.tsx:91-93 | renaming an id that is not listed is a no-op |
| `Roster.RenameSum` | src/App.tsx:89-97 | renaming leaves the sum of the times unchanged |
| `Roster.FoldTimeIsSum` | src/App.tsx:47 | the reduce with an accumulator yields the accumulator plus the sum of all times |
| `Roster.TotalTimeIsSum` | src/App.tsx:47 | the total the effect computes is the sum of all times |
| `Roster.SumNonNegative` | src/App.tsx:47 | non-negative times give a non-negative total |
| `PlayerTimer.Mount` | src/Player.tsx:40 | a mounted component's local time starts at the stored time, and it runs exactly when its id is the active one |
| `PlayerTimer.IntervalFires` | src/Player.tsx:53-67 | a running timer moves from t to t+1 and reports (id, t+1); a stopped timer has no interval, so it neither changes nor reports |
| `PlayerTimer.RunAdvances` | src/Player.tsx:53-67 | after n firings a running timer is n seconds further on and a stopped one has not moved |
| `PlayerTimer.ResetEffect` | src/Player.tsx:46-51 | with the reset flag set, the local time becomes 0 and (id, 0) is reported; otherwise nothing changes |
| `App.Commit` | src/App.tsx:45-48 | after a list change, the stored copy equals the new list and the total equals its sum; the active id is untouched |
| `App.Initialize` | src/App.tsx:29-39 | a saved list is used as it is; otherwise the four default players, total 0; nobody runs |
| `App.Toggle` | src/App.tsx:56-62 | the result is none exactly when the pressed id was the active one, and otherwise it is the pressed id |
| `App.StartStop` | src/App.tsx:56-62 | only the active id changes, by the toggle rule |
| `App.StartStopTwice` | src/App.tsx:56-62 | pressing the same button twice from any other state ends stopped; from running it returns to the same state |
| `App.AtMostOneRunning` | src/App.tsx:143 | with distinct ids, at most one component is told it is running |
| `App.Reset` | src/App.tsx:64-73 | whatever the prior state: four fresh players "Player 1".."Player 4" at 0, stored, total 0, nobody running |
| `App.TimeUpdate` | src/App.tsx:79-87 | only the matching entry's time changes; the list is stored and the total re-summed; the active id is untouched |
| `App.TimeUpdateTotal` | src/App.tsx:79-87 | for a listed player, the new list replaces exactly that entry and the total moves by exactly the change |
| `App.TimeUpdateAbsent` | src/App.tsx:79-87 | an update naming an id that is not listed leaves the state as it was |
| `App.NameChange` | src/App.tsx:89-97 | only the matching entry's name changes; times and the total are unchanged; the list is stored |
| `App.NameChangeAbsent` | src/App.tsx:89-97 | a rename of an id that is not listed leaves the state as it was |
| `App.AddPlayer` | src/App.tsx:99-108 | the old entries keep their positions, one "Player n+1" at 0 is appended, the list is stored and the total is unchanged |
| `App.RemovePlayer` | src/App.tsx:110-119 | the survivors are exactly the entries with another id; the active id is cleared exactly when it was the removed one, and otherwise kept |
| `App.RemovePlayerAt` | src/App.tsx:110-115 | removing a listed player deletes its one position, keeps the rest in order and lowers the total by its time |
| `App.RemovePlayerAbsent` | src/App.tsx:110-119 | removing an id that is not listed changes nothing |
| `App.RemoveOtherKeepsRunning` | src/App.tsx:116-118 | removing another player keeps the running player running and its entry, time included, untouched |
| `App.InitializeValid` | src/App.tsx:29-48 | a saved list with distinct ids and non-negative times, or four distinct drawn ids, gives a well-formed start |
| `App.StartStopValid` | src/App.tsx:56-62 | pressing the button of a listed player keeps the state well formed |
| `App.ResetValid` | src/App.tsx:64-73 | reset with distinct drawn ids yields a well-formed state from any state |
| `App.TimeUpdateValid` | src/App.tsx:79-87 | a non-negative time update keeps the state well formed |
| `App.NameChangeValid` | src/App.tsx:89-97 | a rename keeps the state well formed |
| `App.AddPlayerValid` | src/App.tsx:99-108 | adding under an id not yet listed keeps the state well formed |
| `App.RemovePlayerValid` | src/App.tsx:110-119 | removal keeps the state well formed and never leaves the active id pointing at a missing entry |
| `App.Tick` | src/Player.tsx:56-61 | a tick never changes the active id, and with nobody running it changes nothing |
| `App.TickAdvancesRunning` | src/Player.tsx:56-61 | a tick sets the running player's time to exactly the previous value plus one, changes no other entry, and raises the total by exactly 1 |
| `App.TickLeavesOthers` | src/Player.tsx:53-67 | a player that is not running is never advanced |
| `App.TickValid` | src/Player.tsx:56-61 | a tick keeps the state well formed, in particular all times non-negative |
| `App.TickIsIntervalReport` | src/Player.tsx:53-67 | the component of entry k reports exactly when it is the running one, and then reports its stored time plus one; applying the report is the tick, after which the local time again equals the stored time |
| `App.ResetReportsRedundant` | src/Player.tsx:46-51 | after a reset, each new component's reset effect reports (id, 0), and applying that report leaves the state unchanged |
| `App.SessionStart` | src/App.tsx:29-39 | with nothing stored, the application opens with four players at 0 and nobody running |
| `App.SessionTick` | src/Player.tsx:56-61 | in a four-player session a tick adds one second to the running player's time and to the total, and to nothing else |
| `App.ScenarioStartAndTick` | src/App.tsx:56-62 | starting the first of four players at zero and ticking three times gives times 3, 0, 0, 0, total 3, first still running |
| `App.ScenarioSwitchPlayers` | src/App.tsx:56-62 | then stopping the first, starting the second and ticking twice gives times 3, 2, 0, 0 and total 5 |
| `App.ScenarioAddFifth` | src/App.tsx:99-108 | adding to four players gives a fifth entry "Player 5" at 0 |

## Left out

- Local storage and JSON are not modelled. The stored value is the `stored` field, and `Initialize` receives the saved list already decoded, or `None`. The JSON round trip is not modelled.
- `JSON.parse` on malformed saved text throws (src/App.tsx:32). The code has no fallback, so the model has none.
- An empty saved string is falsy and so counts as absent. The model folds this into `None`.
- A failed storage write is not handled by the code. The model does no I/O, so it has no such failure.
- Times are mathematical integers. A JavaScript number is a double, so the model agrees with it only for whole numbers of magnitude below 2^53. The record type also excludes saved entries whose time is fractional, non-numeric or missing. The code would take such entries as they are: a string time makes the reduce concatenate text, and a missing time is shown as "NaNm NaNs".
- `uuidv4` is not modelled. Fresh ids are parameters. That they are new and pairwise distinct is a hypothesis of `AddPlayerValid`, `ResetValid` and `InitializeValid`, not a precondition of the handlers.
- The transient `reset` flag and its `setTimeout` (src/App.tsx:74-75) are left out. Replacing the list already resets every time. `ResetReportsRedundant` shows that the zero reports the flag triggers change nothing.
- React scheduling is left out: effects, `setInterval`/`setTimeout` timing, state batching and stale closures. A tick is a discrete transition. The model recomputes the total in the same step as the list change, so it does not show the render where `totalTime` still holds the old sum.
- `Tick` looks the active player up in the list. When the active id names no listed entry, no component runs, so no interval fires and the tick changes nothing.
- Presentation is left out: JSX, Chakra components, confirmation dialogs, edit mode, focus and selection, and key handling.
- `src/main.tsx` is left out. It only configures the theme and mounts the root, and it is not part of this model.
- `App.Tick` does not model a saved list in which the running id appears twice. The page would mount two running components for that id. Each would report its own local time plus one into both entries, so the local and stored times drift apart. `Tick` instead writes the first matching entry's time plus one into both entries. React's handling of duplicate keys is itself unspecified, and no list the application writes has a repeated id.
- `App.Tick`: its own contract only says that the active id is kept and that nothing changes with nobody running. What one tick does to the times is stated by `App.TickAdvancesRunning` and `App.TickLeavesOthers`.

=== FILE: app.dfy ===
/**
  The App component's state machine: the ordered player list, the id of the
  one running player (if any), the snapshot last written to local storage,
  and the displayed total. Each handler is a total function from state to
  state; fresh uuids are passed in as parameters.
 */
module App {
  import opened Wrappers
  import opened Decimal
  import opened Roster
  import opened PlayerTimer

  datatype State = State(
    players: seq<PlayerData>,
    active: Option<Id>,
    stored: seq<PlayerData>,   // the value under the "players" storage key
    total: int                 // the totalTime state, recomputed after each list change
  )

  /** The well-formed states: what every reachable state satisfies. */
  predicate Valid(s: State) {
    && DistinctIds(s.players)
    && NonNegative(s.players)
    && s.stored == s.players
    && s.total == Sum(s.players)
    && (s.active.Some? ==> s.active.value in Ids(s.players))
  }

  /** The effect that follows each change of the list: persist it and recompute the total. */
  function Commit(s: State, ps: seq<PlayerData>): (r: State)
    ensures r.players == ps && r.stored == ps && r.active == s.active
    ensures r.total == Sum(ps)
  {
    TotalTimeIsSum(ps);
    s.(players := ps, stored := ps, total := TotalTime(ps))
  }

  /**
    Startup: the stored list if there is one, otherwise the four default
    players; nobody runs. The mount effect writes the list back to storage.
   */
  function Initialize(saved: Option<seq<PlayerData>>, ids: seq<Id>): (r: State)
    requires |ids| == 4
    ensures r.active == None && r.stored == r.players && r.total == Sum(r.players)
    ensures saved.Some? ==> r.players == saved.value
    ensures saved.None? ==> |r.players| == 4 && r.total == 0
    ensures saved.None? ==> forall i :: 0 <= i < 4 ==>
              r.players[i] == PlayerData(ids[i], PlayerName(i + 1), 0)
  {
    DefaultZero(ids);
    Commit(State([], None, [], 0), if saved.Some? then saved.value else DefaultPlayers(ids))
  }

  /** handleStartStop on the active id: pressing the running player stops it, any other starts it. */
  function Toggle(active: Option<Id>, id: Id): (r: Option<Id>)
    ensures r == None <==> active == Some(id)
    ensures r != None ==> r == Some(id)
  {
    if active == Some(id) then None else Some(id)
  }

  function StartStop(s: State, id: Id): (r: State)
    ensures r.players == s.players && r.stored == s.stored && r.total == s.total
    ensures r.active == None <==> s.active == Some(id)
    ensures r.active != None ==> r.active == Some(id)
  {
    s.(active := Toggle(s.active, id))
  }

  /** handleReset: four fresh zeroed players, nobody running, written to storage. */
  function Reset(s: State, ids: seq<Id>): (r: State)
    requires |ids| == 4
    ensures r.active == None && r.stored == r.players && r.total == 0
    ensures |r.players| == 4
    ensures forall i :: 0 <= i < 4 ==> r.players[i] == PlayerData(ids[i], PlayerName(i + 1), 0)
  {
    DefaultZero(ids);
    Commit(s, DefaultPlayers(ids)).(active := None)
  }

  /** handleTimeUpdate: overwrite the time of the matching entry. */
  function TimeUpdate(s: State, id: Id, t: int): (r: State)
    ensures r.active == s.active && r.stored == r.players && r.total == Sum(r.players)
    ensures |r.players| == |s.players|
    ensures forall i :: 0 <= i < |s.players| ==>
              r.players[i].id == s.players[i].id && r.players[i].name == s.players[i].name
              && r.players[i].time == (if s.players[i].id == id then t else s.players[i].time)
  {
    SetTimeKeepsInvariants(s.players, id, t);
    Commit(s, SetTime(s.players, id, t))
  }

  /** handleNameChange: overwrite the name of the matching entry with any string. */
  function NameChange(s: State, id: Id, name: string): (r: State)
    ensures r.active == s.active && r.stored == r.players && r.total == Sum(s.players)
    ensures |r.players| == |s.players|
    ensures forall i :: 0 <= i < |s.players| ==>
              r.players[i].id == s.players[i].id && r.players[i].time == s.players[i].time
              && r.players[i].name == (if s.players[i].id == id then name else s.players[i].name)
  {
    RenameSum(s.players, id, name);
    Commit(s, Rename(s.players, id, name))
  }

  /** addPlayer: append "Player n+1" with time 0 under a freshly drawn id. */
  function AddPlayer(s: State, newId: Id): (r: State)
    ensures r.active == s.active && r.stored == r.players
    ensures |r.players| == |s.players| + 1 && r.players[..|s.players|] == s.players
    ensures r.players[|s.players|] == PlayerData(newId, PlayerName(|s.players| + 1), 0)
    ensures r.total == Sum(s.players)
  {
    AppendKeepsInvariants(s.players, newId);
    Commit(s, Append(s.players, newId))
  }

  /** removePlayer: drop the matching entries; stop the clock if it was the running player. */
  function RemovePlayer(s: State, id: Id): (r: State)
    ensures r.stored == r.players && r.total == Sum(r.players)
    ensures forall p :: p in r.players <==> p in s.players && p.id != id
    ensures id !in Ids(r.players)
    ensures r.active == None <==> s.active == None || s.active == Some(id)
    ensures r.active != None ==> r.active == s.active
  {
    RemoveKeepsInvariants(s.players, id);
    RemoveMembers(s.players, id);
    var r := Commit(s, Remove(s.players, id));
    if s.active == Some(id) then r.(active := None) else r
  }

  /**
    One second of play: the running player's time becomes its previous value
    plus one, reported through handleTimeUpdate. With nobody running, or with
    an active id that matches no entry, no interval exists and nothing changes.
   */
  function Tick(s: State): (r: State)
    ensures r.active == s.active
    ensures s.active == None ==> r == s
  {
    match s.active
    case None => s
    case Some(a) =>
      match IndexOf(s.players, a)
      case None => s
      case Some(k) => TimeUpdate(s, a, s.players[k].time + 1)
  }

  /** Whether the component of entry i shows as running: its id is the active id. */
  predicate Running(s: State, i: nat)
    requires i < |s.players|
  {
    s.active == Some(s.players[i].id)
  }

  // ---------------------------------------------------------------- the invariant is kept

  lemma InitializeValid(saved: Option<seq<PlayerData>>, ids: seq<Id>)
    requires |ids| == 4
    requires saved.Some? ==> DistinctIds(saved.value) && NonNegative(saved.value)
    requires saved.None? ==> forall i, j :: 0 <= i < j < 4 ==> ids[i] != ids[j]
    ensures Valid(Initialize(saved, ids))
  {
    if saved.None? {
      DefaultDistinct(ids);
      DefaultZero(ids);
    }
  }

  /** Starting a listed player keeps the state well formed. */
  lemma StartStopValid(s: State, id: Id)
    requires Valid(s) && id in Ids(s.players)
    ensures Valid(StartStop(s, id))
  {
  }

  lemma ResetValid(s: State, ids: seq<Id>)
    requires |ids| == 4 && forall i, j :: 0 <= i < j < 4 ==> ids[i] != ids[j]
    ensures Valid(Reset(s, ids))
  {
    DefaultDistinct(ids);
    DefaultZero(ids);
  }

  lemma TimeUpdateValid(s: State, id: Id, t: int)
    requires Valid(s) && t >= 0
    ensures Valid(TimeUpdate(s, id, t))
  {
    SetTimeKeepsInvariants(s.players, id, t);
  }

  lemma NameChangeValid(s: State, id: Id, name: string)
    requires Valid(s)
    ensures Valid(NameChange(s, id, name))
  {
    RenameKeepsInvariants(s.players, id, name);
  }

  /** Adding under an id not yet in the list keeps the state well formed. */
  lemma AddPlayerValid(s: State, newId: Id)
    requires Valid(s) && newId !in Ids(s.players)
    ensures Valid(AddPlayer(s, newId))
  {
    AppendKeepsInvariants(s.players, newId);
    var r := AddPlayer(s, newId);
    if s.active.Some? {
      var i :| 0 <= i < |s.players| && Ids(s.players)[i] == s.active.value;
      assert Ids(r.players)[i] == s.active.value;
    }
  }

  /** Removal never leaves the active id pointing at a missing entry. */
  lemma RemovePlayerValid(s: State, id: Id)
    requires Valid(s)
    ensures Valid(RemovePlayer(s, id))
  {
    RemoveKeepsInvariants(s.players, id);
    var r := RemovePlayer(s, id);
    if r.active.Some? {
      var a := r.active.value;
      var i :| 0 <= i < |s.players| && Ids(s.players)[i] == a;
      assert s.players[i] in r.players;
      var j :| 0 <= j < |r.players| && r.players[j] == s.players[i];
      assert Ids(r.players)[j] == a;
    }
  }

  lemma TickValid(s: State)
    requires Valid(s)
    ensures Valid(Tick(s))
  {
    if s.active.Some? {
      match IndexOf(s.players, s.active.value)
      case None =>
      case Some(k) => TimeUpdateValid(s, s.active.value, s.players[k].time + 1);
    }
  }

  // ---------------------------------------------------------------- start and stop

  /** Distinct ids make the running player unique. */
  lemma AtMostOneRunning(s: State, i: nat, j: nat)
    requires DistinctIds(s.players) && i < |s.players| && j < |s.players|
    requires Running(s, i) && Running(s, j)
    ensures i == j
  {
  }

  /** Pressing the same button twice: from any other state it ends stopped; from running it comes back. */
  lemma StartStopTwice(s: State, id: Id)
    ensures s.active != Some(id) ==> StartStop(StartStop(s, id), id) == s.(active := None)
    ensures s.active == Some(id) ==> StartStop(StartStop(s, id), id) == s
  {
  }

  // ---------------------------------------------------------------- list handlers

  /** Overwriting the time of a listed player moves the total by exactly that change. */
  lemma TimeUpdateTotal(s: State, k: nat, t: int)
    requires Valid(s) && k < |s.players|
    ensures TimeUpdate(s, s.players[k].id, t).players == s.players[k := s.players[k].(time := t)]
    ensures TimeUpdate(s, s.players[k].id, t).total == s.total - s.players[k].time + t
  {
    SetTimeSum(s.players, k, t);
  }

  /** Naming an absent id leaves the state as it was. */
  lemma TimeUpdateAbsent(s: State, id: Id, t: int)
    requires Valid(s) && id !in Ids(s.players)
    ensures TimeUpdate(s, id, t) == s
  {
    SetTimeAbsent(s.players, id, t);
  }

  lemma NameChangeAbsent(s: State, id: Id, name: string)
    requires Valid(s) && id !in Ids(s.players)
    ensures NameChange(s, id, name) == s
  {
    RenameAbsent(s.players, id, name);
  }

  /** Removing a listed player deletes its one position and closes the gap; the rest keep their order. */
  lemma RemovePlayerAt(s: State, k: nat)
    requires Valid(s) && k < |s.players|
    ensures RemovePlayer(s, s.players[k].id).players == s.players[..k] + s.players[k + 1..]
    ensures RemovePlayer(s, s.players[k].id).total == s.total - s.players[k].time
  {
    var ps := s.players;
    RemoveAt(ps, k);
    assert ps == ps[..k] + [ps[k]] + ps[k + 1..];
    SumAppend(ps[..k] + [ps[k]], ps[k + 1..]);
    SumAppend(ps[..k], [ps[k]]);
    SumAppend(ps[..k], ps[k + 1..]);
  }

  /** Removing an id that is not listed changes nothing. */
  lemma RemovePlayerAbsent(s: State, id: Id)
    requires Valid(s) && id !in Ids(s.players)
    ensures RemovePlayer(s, id) == s
  {
    RemoveAbsent(s.players, id);
  }

  /** Removing some other player keeps the running player running, with its time untouched. */
  lemma RemoveOtherKeepsRunning(s: State, k: nat, id: Id)
    requires Valid(s) && k < |s.players| && Running(s, k) && s.players[k].id != id
    ensures RemovePlayer(s, id).active == s.active
    ensures s.players[k] in RemovePlayer(s, id).players
  {
  }

  // ---------------------------------------------------------------- ticks

  /** A tick adds exactly one second to the running player, and so to the total. */
  lemma TickAdvancesRunning(s: State, k: nat)
    requires Valid(s) && k < |s.players| && Running(s, k)
    ensures Tick(s).players == s.players[k := s.players[k].(time := s.players[k].time + 1)]
    ensures Tick(s).total == s.total + 1
  {
    IndexOfDistinct(s.players, k);
    TickFound(s, k);
    TimeUpdateTotal(s, k, s.players[k].time + 1);
  }

  /** When the active id is found at position k, a tick is a time update of that entry. */
  lemma TickFound(s: State, k: nat)
    requires k < |s.players| && s.active == Some(s.players[k].id)
    requires IndexOf(s.players, s.players[k].id) == Some(k)
    ensures Tick(s) == TimeUpdate(s, s.players[k].id, s.players[k].time + 1)
  {
  }

  /** A player that is not running is never advanced by a tick. */
  lemma TickLeavesOthers(s: State, i: nat)
    requires Valid(s) && i < |s.players| && !Running(s, i)
    ensures |Tick(s).players| == |s.players| && Tick(s).players[i] == s.players[i]
  {
    if s.active.Some? {
      match IndexOf(s.players, s.active.value)
      case None =>
      case Some(k) => TimeUpdateTotal(s, k, s.players[k].time + 1);
    }
  }

  /**
    The tick is what the component's interval does: the component of the
    running player reports its stored time plus one, the parent applies that
    report, and the component's local time again equals the stored one. Every
    other component's interval does not exist, so it reports nothing.
   */
  lemma TickIsIntervalReport(s: State, k: nat)
    requires Valid(s) && k < |s.players|
    ensures var (t, report) := IntervalFires(Mount(s.players[k], s.active));
            && (report.Some? <==> Running(s, k))
            && (report.Some? ==>
                  && report.value == Report(s.players[k].id, s.players[k].time + 1)
                  && Tick(s) == TimeUpdate(s, report.value.id, report.value.time)
                  && t == Mount(Tick(s).players[k], Tick(s).active))
  {
    if Running(s, k) {
      TickAdvancesRunning(s, k);
      IndexOfDistinct(s.players, k);
    }
  }

  // ---------------------------------------------------------------- reset

  /**
    The reset flag is redundant: once the list is replaced, each new
    component's reset effect zeroes its local time and reports 0, and applying
    that report changes nothing.
   */
  lemma ResetReportsRedundant(s: State, ids: seq<Id>, i: nat)
    requires |ids| == 4 && i < 4
    ensures var r := Reset(s, ids);
            var (t, report) := ResetEffect(Mount(r.players[i], r.active), true);
            && t == Mount(r.players[i], r.active)
            && report == Some(Report(ids[i], 0))
            && TimeUpdate(r, ids[i], 0) == r
  {
    var r := Reset(s, ids);
    SetTimeNoChange(r.players, ids[i], 0);
  }

  // ---------------------------------------------------------------- scenarios

  /** A well-formed session of four players with the given ids and times. */
  predicate Session(s: State, ids: seq<Id>, times: seq<int>) {
    && Valid(s) && |s.players| == 4 && |ids| == 4 && |times| == 4
    && (forall i :: 0 <= i < 4 ==> s.players[i].id == ids[i] && s.players[i].time == times[i])
    && s.total == times[0] + times[1] + times[2] + times[3]
  }

  /** The session the application opens with when nothing is stored. */
  lemma SessionStart(ids: seq<Id>)
    requires |ids| == 4 && forall i, j :: 0 <= i < j < 4 ==> ids[i] != ids[j]
    ensures Session(Initialize(None, ids), ids, [0, 0, 0, 0])
    ensures Initialize(None, ids).active == None
  {
    InitializeValid(None, ids);
  }

  /** Pressing a button of the session changes no times. */
  lemma SessionStartStop(s: State, ids: seq<Id>, times: seq<int>, k: nat)
    requires Session(s, ids, times) && k < 4
    ensures Session(StartStop(s, ids[k]), ids, times)
  {
    assert Ids(s.players)[k] == ids[k];
    StartStopValid(s, ids[k]);
  }

  /** A tick of the session adds one second to the running player only. */
  lemma SessionTick(s: State, ids: seq<Id>, times: seq<int>, k: nat)
    requires Session(s, ids, times) && k < 4 && s.active == Some(ids[k])
    ensures Session(Tick(s), ids, times[k := times[k] + 1]) && Tick(s).active == s.active
  {
    TickAdvancesRunning(s, k);
    TickValid(s);
  }

  /** While the first of four players runs, a tick moves its time from n to n + 1. */
  lemma FirstTicks(s: State, ids: seq<Id>, n: int)
    requires Session(s, ids, [n, 0, 0, 0]) && s.active == Some(ids[0])
    ensures Session(Tick(s), ids, [n + 1, 0, 0, 0]) && Tick(s).active == s.active
  {
    SessionTick(s, ids, [n, 0, 0, 0], 0);
    assert [n, 0, 0, 0][0 := n + 1] == [n + 1, 0, 0, 0];
  }

  /** While the second runs after the first stopped at three, a tick moves it from n to n + 1. */
  lemma SecondTicks(s: State, ids: seq<Id>, n: int)
    requires Session(s, ids, [3, n, 0, 0]) && s.active == Some(ids[1])
    ensures Session(Tick(s), ids, [3, n + 1, 0, 0]) && Tick(s).active == s.active
  {
    SessionTick(s, ids, [3, n, 0, 0], 1);
    assert [3, n, 0, 0][1 := n + 1] == [3, n + 1, 0, 0];
  }

  /** From four players at zero (as SessionStart opens with): start the first; three ticks. */
  lemma ScenarioStartAndTick(s0: State, ids: seq<Id>)
    requires Session(s0, ids, [0, 0, 0, 0]) && s0.active == None
    ensures var s := Tick(Tick(Tick(StartStop(s0, ids[0]))));
            && Session(s, ids, [3, 0, 0, 0]) && s.total == 3 && s.active == Some(ids[0])
  {
    SessionStartStop(s0, ids, [0, 0, 0, 0], 0);
    var s1 := StartStop(s0, ids[0]);
    FirstTicks(s1, ids, 0);
    FirstTicks(Tick(s1), ids, 1);
    FirstTicks(Tick(Tick(s1)), ids, 2);
  }

  /** Stopping the running first player and starting the second keeps every time. */
  lemma HandOver(a: State, ids: seq<Id>, times: seq<int>)
    requires Session(a, ids, times) && a.active == Some(ids[0])
    ensures var c := StartStop(StartStop(a, ids[0]), ids[1]);
            Session(c, ids, times) && c.active == Some(ids[1])
  {
    SessionStartStop(a, ids, times, 0);
    SessionStartStop(StartStop(a, ids[0]), ids, times, 1);
  }

  /** Continuing from there: stop the first, start the second, two more ticks. */
  lemma ScenarioSwitchPlayers(a: State, ids: seq<Id>)
    requires Session(a, ids, [3, 0, 0, 0]) && a.active == Some(ids[0])
    ensures var s := Tick(Tick(StartStop(StartStop(a, ids[0]), ids[1])));
            && Session(s, ids, [3, 2, 0, 0]) && s.total == 5
  {
    HandOver(a, ids, [3, 0, 0, 0]);
    var c := StartStop(StartStop(a, ids[0]), ids[1]);
    SecondTicks(c, ids, 0);
    SecondTicks(Tick(c), ids, 1);
  }

  /** Adding to the four default players gives a fifth, "Player 5", at zero. */
  lemma ScenarioAddFifth(s: State, newId: Id)
    requires |s.players| == 4
    ensures |AddPlayer(s, newId).players| == 5
    ensures AddPlayer(s, newId).players[4] == PlayerData(newId, "Player 5", 0)
  {
    assert NatToString(5) == "5";
  }
}

=== FILE: clock.dfy ===
/**
  The "{minutes}m {seconds}s" rendering of a whole number of seconds, shared by
  the total display in App.tsx and the per-player display in Player.tsx, and a
  parser that reads such a rendering back.
 */
module Clock {
  import opened Wrappers
  import opened Decimal

  /** JavaScript's `%`: the remainder takes the sign of the dividend. */
  function JsRem(a: int, d: int): int
    requires d > 0
  {
    if a >= 0 then a % d else -((-a) % d)
  }

  /**
    Minutes and leftover seconds: `Math.floor(seconds / 60)` and `seconds % 60`.
    Dafny's `/` with a positive divisor already rounds down, like `Math.floor`.
   */
  function Split(seconds: int): (mr: (int, int))
    ensures seconds >= 0 ==> mr.0 >= 0 && 0 <= mr.1 < 60 && mr.0 * 60 + mr.1 == seconds
    ensures seconds < 0 ==> mr.0 < 0 && -60 < mr.1 <= 0
    ensures mr.0 * 60 <= seconds < mr.0 * 60 + 60
    ensures seconds < 0 ==> (seconds - mr.1) % 60 == 0
  {
    JsRemMultiple(seconds);
    (seconds / 60, JsRem(seconds, 60))
  }

  /** JavaScript's remainder by 60 lies on the dividend's side of zero and leaves a multiple of 60. */
  lemma JsRemMultiple(a: int)
    ensures a >= 0 ==> JsRem(a, 60) == a % 60
    ensures a < 0 ==> -60 < JsRem(a, 60) <= 0 && (a - JsRem(a, 60)) % 60 == 0
  {
    if a < 0 {
      var q, r := (-a) / 60, (-a) % 60;
      assert -a == q * 60 + r && 0 <= r < 60;
      assert a - JsRem(a, 60) == (-q) * 60;
    }
  }

  /** Minutes text, "m ", seconds text, "s". */
  function Layout(ms: string, rs: string): string {
    ms + ("m" + (" " + (rs + "s")))
  }

  /** The text shown for a time: minutes, "m ", leftover seconds, "s". */
  function FormatTime(seconds: int): (s: string)
    ensures seconds >= 0 ==> s == Layout(NatToString(seconds / 60), NatToString(seconds % 60))
  {
    var (m, r) := Split(seconds);
    Layout(IntToString(m), IntToString(r))
  }

  /** Length of the run of digits at the start of `s`. */
  function DigitSpan(s: string): (k: nat)
    ensures k <= |s| && AllDigits(s[..k])
    ensures k < |s| ==> !IsDigit(s[k])
  {
    if |s| == 0 || !IsDigit(s[0]) then 0
    else
      var k := 1 + DigitSpan(s[1..]);
      assert s[..k] == [s[0]] + s[1..][..k - 1];
      k
  }

  /** Reads a non-empty digit run ended by `unit`; yields its value and the text after `unit`. */
  function ReadUnit(s: string, unit: char): (r: Option<(nat, string)>)
    ensures r.Some? ==> |r.value.1| < |s|
  {
    var k := DigitSpan(s);
    if 0 < k < |s| && s[k] == unit then Some((ValueOf(s[..k]), s[k + 1..])) else None
  }

  /** Reads "{digits}m {digits}s" back into a number of seconds; None for any other text. */
  function ParseClock(s: string): (r: Option<nat>)
  {
    match ReadUnit(s, 'm')
    case None => None
    case Some((m, rest)) => ParseSeconds(m, rest)
  }

  /** The part after the minutes: one space, then "{digits}s" and nothing more. */
  function ParseSeconds(m: nat, t: string): (r: Option<nat>)
  {
    if |t| == 0 || t[0] != ' ' then None
    else match ReadUnit(t[1..], 's')
      case None => None
      case Some((r, rest)) => if rest == [] then Some(m * 60 + r) else None
  }

  /** A digit run followed by a non-digit is read to exactly its own length. */
  lemma {:induction false} DigitSpanOfDigits(d: string, t: string)
    requires AllDigits(d) && 0 < |t| && !IsDigit(t[0])
    ensures DigitSpan(d + t) == |d|
    decreases |d|
  {
    if |d| > 0 {
      assert (d + t)[1..] == d[1..] + t;
      DigitSpanOfDigits(d[1..], t);
    } else {
      assert d + t == t;
    }
  }

  /** A digit run followed by its unit is read as its value, leaving what follows the unit. */
  lemma ReadUnitOf(d: string, unit: char, t: string)
    requires 0 < |d| && AllDigits(d) && !IsDigit(unit)
    ensures ReadUnit(d + ([unit] + t), unit) == Some((ValueOf(d), t))
  {
    var s := d + ([unit] + t);
    DigitSpanOfDigits(d, [unit] + t);
    assert s[..|d|] == d && s[|d| + 1..] == t;
  }

  /** After the minutes, a space and "{digits}s" read to the end give the whole number of seconds. */
  lemma ParseSecondsOf(m: nat, rs: string, r: nat)
    requires ReadUnit(rs + "s", 's') == Some((r, []))
    ensures ParseSeconds(m, " " + (rs + "s")) == Some(m * 60 + r)
  {
    assert (" " + (rs + "s"))[1..] == rs + "s";
  }

  /** The minutes of a layout are read up to its "m", leaving " {r}s". */
  lemma ReadMinutes(ms: string, rs: string)
    requires 0 < |ms| && AllDigits(ms)
    ensures ReadUnit(Layout(ms, rs), 'm') == Some((ValueOf(ms), " " + (rs + "s")))
  {
    ReadUnitOf(ms, 'm', " " + (rs + "s"));
  }

  /** The seconds are read up to the final "s", leaving nothing. */
  lemma ReadSeconds(rs: string)
    requires 0 < |rs| && AllDigits(rs)
    ensures ReadUnit(rs + "s", 's') == Some((ValueOf(rs), []))
  {
    assert rs + "s" == rs + ("s" + []);
    ReadUnitOf(rs, 's', []);
  }

  /** Once the minutes are read, the rest of the parse is the seconds part. */
  lemma ParseClockOf(s: string, m: nat, t: string)
    requires ReadUnit(s, 'm') == Some((m, t))
    ensures ParseClock(s) == ParseSeconds(m, t)
  {
  }

  /** Any two non-empty digit runs laid out as "{m}m {r}s" are read back as m minutes and r seconds. */
  lemma ParseLayout(ms: string, rs: string)
    requires 0 < |ms| && AllDigits(ms) && 0 < |rs| && AllDigits(rs)
    ensures ParseClock(Layout(ms, rs)) == Some(ValueOf(ms) * 60 + ValueOf(rs))
  {
    ReadMinutes(ms, rs);
    ReadSeconds(rs);
    ParseSecondsOf(ValueOf(ms), rs, ValueOf(rs));
    ParseClockOf(Layout(ms, rs), ValueOf(ms), " " + (rs + "s"));
  }

  /** Every non-negative time is read back from its rendering. */
  lemma ParseFormatTime(seconds: nat)
    ensures ParseClock(FormatTime(seconds)) == Some(seconds)
  {
    ParseLayout(NatToString(seconds / 60), NatToString(seconds % 60));
    ValueOfNatToString(seconds / 60);
    ValueOfNatToString(seconds % 60);
  }

  /** Distinct non-negative times are shown differently. */
  lemma FormatTimeInjective(a: nat, b: nat)
    ensures FormatTime(a) == FormatTime(b) ==> a == b
  {
    ParseFormatTime(a);
    ParseFormatTime(b);
  }

  /**
    For a negative time the two parts add up only on whole minutes: floor
    division rounds the minutes down while JavaScript's `%` keeps the sign
    of the dividend, so -1 second is shown as "-1m -1s", whose parts stand
    for -61 seconds.
   */
  lemma SplitAddsUp(seconds: int)
    ensures seconds >= 0 ==> Split(seconds).0 * 60 + Split(seconds).1 == seconds
    ensures seconds < 0 ==> (Split(seconds).0 * 60 + Split(seconds).1 == seconds <==> seconds % 60 == 0)
    ensures FormatTime(-1) == "-1m -1s"
  {
    assert NatToString(1) == "1";
    if seconds < 0 {
      var (m, r) := Split(seconds);
      assert r == -((-seconds) % 60);
      assert seconds == m * 60 + seconds % 60 && 0 <= seconds % 60 < 60;
      if seconds % 60 == 0 {
        assert (-seconds) % 60 == 0;
      }
    }
  }
}

=== FILE: decimal.dfy ===
/**
  Decimal rendering of integers, as a JavaScript template literal renders an
  integral number (`${n}`), together with its inverse on digit strings.
 */
module Decimal {

  predicate IsDigit(c: char) {
    '0' <= c <= '9'
  }

  predicate AllDigits(s: string) {
    forall i :: 0 <= i < |s| ==> IsDigit(s[i])
  }

  /** The character of one decimal digit. */
  function DigitChar(d: nat): (c: char)
    requires d < 10
    ensures IsDigit(c) && c as int - '0' as int == d
  {
    (d + '0' as int) as char
  }

  /** The numeric value of a string of decimal digits (most significant first). */
  function ValueOf(s: string): nat
    requires AllDigits(s)
    decreases |s|
  {
    if |s| == 0 then 0
    else ValueOf(s[..|s| - 1]) * 10 + (s[|s| - 1] as int - '0' as int)
  }

  /** Shortest decimal rendering of a natural number: digits only, no leading zero. */
  function NatToString(n: nat): (s: string)
    ensures 1 <= |s| && AllDigits(s)
    ensures s[0] == '0' ==> n == 0
    ensures n == 0 ==> s == "0"
    decreases n
  {
    if n < 10 then [DigitChar(n)] else NatToString(n / 10) + [DigitChar(n % 10)]
  }

  /** Rendering of any integer: a leading '-' exactly for negative numbers. */
  function IntToString(i: int): (s: string)
    ensures 1 <= |s|
    ensures i >= 0 <==> AllDigits(s)
    ensures i < 0 <==> s[0] == '-'
    ensures i >= 0 ==> ValueOf(s) == i
    ensures i < 0 ==> AllDigits(s[1..]) && ValueOf(s[1..]) == -i
    ensures i >= 0 && s[0] == '0' ==> i == 0
    ensures i < 0 ==> |s| >= 2 && s[1] != '0'
    ensures i == 0 ==> s == "0"
  {
    if i < 0 then
      var s := "-" + NatToString(-i);
      assert !IsDigit(s[0]);
      assert s[1..] == NatToString(-i);
      ValueOfNatToString(-i);
      s
    else
      ValueOfNatToString(i);
      NatToString(i)
  }

  /** Reading the rendering back gives the number: the rendering loses nothing. */
  lemma {:induction false} ValueOfNatToString(n: nat)
    ensures ValueOf(NatToString(n)) == n
    decreases n
  {
    if n >= 10 {
      var s := NatToString(n);
      assert s[..|s| - 1] == NatToString(n / 10);
      ValueOfNatToString(n / 10);
    }
  }

  /** Distinct numbers render distinctly. */
  lemma NatToStringInjective(a: nat, b: nat)
    ensures NatToString(a) == NatToString(b) ==> a == b
  {
    ValueOfNatToString(a);
    ValueOfNatToString(b);
  }
}

=== FILE: player_timer.dfy ===
/**
  The state a Player component keeps for itself: its local copy of the time,
  seeded from the stored time when it mounts, advanced by its one-second
  interval while it is the running player, and zeroed by the reset flag. Each
  change is reported to the parent through onTimeUpdate.
 */
module PlayerTimer {
  import opened Wrappers
  import opened Roster

  /** One component's own state: whose timer it is, its local time, whether its interval is scheduled. */
  datatype Timer = Timer(id: Id, time: int, running: bool)

  /** One `onTimeUpdate(id, time)` call from a component to the parent. */
  datatype Report = Report(id: Id, time: int)

  /**
    The component rendered for a stored entry: the local time starts at the
    stored time, and it runs exactly when its id is the active one.
   */
  function Mount(p: PlayerData, active: Option<Id>): (t: Timer)
    ensures t.id == p.id && t.time == p.time
    ensures t.running <==> active == Some(p.id)
  {
    Timer(p.id, p.time, active == Some(p.id))
  }

  /**
    One firing of the one-second interval. The interval is only scheduled
    while the component runs and is cleared otherwise, so a stopped timer
    neither changes nor reports.
   */
  function IntervalFires(t: Timer): (r: (Timer, Option<Report>))
    ensures r.0.id == t.id && r.0.running == t.running
    ensures t.running ==> r.0.time == t.time + 1 && r.1 == Some(Report(t.id, r.0.time))
    ensures !t.running ==> r.0 == t && r.1 == None
  {
    if t.running then
      var next := t.time + 1;
      (t.(time := next), Some(Report(t.id, next)))
    else (t, None)
  }

  /** The reset-flag effect: when the flag is set, the local time becomes 0 and 0 is reported. */
  function ResetEffect(t: Timer, reset: bool): (r: (Timer, Option<Report>))
    ensures r.0.id == t.id && r.0.running == t.running
    ensures reset ==> r.0.time == 0 && r.1 == Some(Report(t.id, 0))
    ensures !reset ==> r.0 == t && r.1 == None
  {
    if reset then (t.(time := 0), Some(Report(t.id, 0))) else (t, None)
  }

  /** The timer after `n` firings of its interval. */
  function Run(t: Timer, n: nat): Timer
    decreases n
  {
    if n == 0 then t else Run(IntervalFires(t).0, n - 1)
  }

  /** A running timer gains exactly one second per firing; a stopped one never moves. */
  lemma {:induction false} RunAdvances(t: Timer, n: nat)
    ensures Run(t, n).id == t.id && Run(t, n).running == t.running
    ensures Run(t, n).time == (if t.running then t.time + n else t.time)
    decreases n
  {
    if n > 0 {
      RunAdvances(IntervalFires(t).0, n - 1);
    }
  }
}

=== FILE: roster.dfy ===
/**
  The ordered list of player records kept by App.tsx and the pure list
  transformations its handlers apply to it.
 */
module Roster {
  import opened Wrappers
  import opened Decimal

  /** A player identifier (a uuid string in the application). */
  type Id = string

  /** One player: identifier, display name, elapsed whole seconds. */
  datatype PlayerData = PlayerData(id: Id, name: string, time: int)

  /** The identifiers of a list, in list order. */
  function Ids(ps: seq<PlayerData>): (ids: seq<Id>)
    ensures |ids| == |ps|
    ensures forall i :: 0 <= i < |ps| ==> ids[i] == ps[i].id
  {
    seq(|ps|, i requires 0 <= i < |ps| => ps[i].id)
  }

  /** No identifier occurs twice. */
  predicate DistinctIds(ps: seq<PlayerData>) {
    forall i, j :: 0 <= i < j < |ps| ==> ps[i].id != ps[j].id
  }

  /** No player has a negative time. */
  predicate NonNegative(ps: seq<PlayerData>) {
    forall i :: 0 <= i < |ps| ==> ps[i].time >= 0
  }

  /** Reference definition of the aggregate: the sum of all times. */
  function Sum(ps: seq<PlayerData>): int {
    if |ps| == 0 then 0 else ps[0].time + Sum(ps[1..])
  }

  /** `reduce((acc, player) => acc + player.time, acc)`: a left fold over the list. */
  function FoldTime(ps: seq<PlayerData>, acc: int): int {
    if |ps| == 0 then acc else FoldTime(ps[1..], acc + ps[0].time)
  }

  /** The total shown at the top of the page. */
  function TotalTime(ps: seq<PlayerData>): int {
    FoldTime(ps, 0)
  }

  /** The generated name of the n-th player, "Player n". */
  function PlayerName(n: nat): (r: string)
    ensures |r| > 7 && r[..7] == "Player "
    ensures AllDigits(r[7..]) && ValueOf(r[7..]) == n
  {
    var r := "Player " + NatToString(n);
    assert r[7..] == NatToString(n);
    ValueOfNatToString(n);
    r
  }

  /** The four players of a fresh session, with the four freshly drawn ids. */
  function DefaultPlayers(ids: seq<Id>): (ps: seq<PlayerData>)
    requires |ids| == 4
    ensures |ps| == 4
    ensures forall i :: 0 <= i < 4 ==> ps[i] == PlayerData(ids[i], PlayerName(i + 1), 0)
  {
    assert NatToString(1) == "1" && NatToString(2) == "2";
    assert NatToString(3) == "3" && NatToString(4) == "4";
    [ PlayerData(ids[0], "Player 1", 0),
      PlayerData(ids[1], "Player 2", 0),
      PlayerData(ids[2], "Player 3", 0),
      PlayerData(ids[3], "Player 4", 0) ]
  }

  /** addPlayer's list: one new zeroed entry at the end, named after the new length. */
  function Append(ps: seq<PlayerData>, newId: Id): (r: seq<PlayerData>)
    ensures |r| == |ps| + 1 && r[..|ps|] == ps
    ensures r[|ps|].id == newId && r[|ps|].name == PlayerName(|r|) && r[|ps|].time == 0
  {
    ps + [PlayerData(newId, PlayerName(|ps| + 1), 0)]
  }

  /** removePlayer's list: keep exactly the entries whose id differs from `id`. */
  function Remove(ps: seq<PlayerData>, id: Id): (r: seq<PlayerData>)
    ensures |r| <= |ps|
    ensures forall i :: 0 <= i < |r| ==> r[i].id != id
  {
    if |ps| == 0 then []
    else if ps[0].id == id then Remove(ps[1..], id)
    else [ps[0]] + Remove(ps[1..], id)
  }

  /** handleTimeUpdate's list: matching entries get the new time, nothing else changes. */
  function SetTime(ps: seq<PlayerData>, id: Id, t: int): (r: seq<PlayerData>)
    ensures |r| == |ps|
    ensures forall i :: 0 <= i < |ps| ==>
              r[i].id == ps[i].id && r[i].name == ps[i].name
              && r[i].time == (if ps[i].id == id then t else ps[i].time)
  {
    if |ps| == 0 then []
    else [if ps[0].id == id then ps[0].(time := t) else ps[0]] + SetTime(ps[1..], id, t)
  }

  /** handleNameChange's list: matching entries get the new name, nothing else changes. */
  function Rename(ps: seq<PlayerData>, id: Id, name: string): (r: seq<PlayerData>)
    ensures |r| == |ps|
    ensures forall i :: 0 <= i < |ps| ==>
              r[i].id == ps[i].id && r[i].time == ps[i].time
              && r[i].name == (if ps[i].id == id then name else ps[i].name)
  {
    if |ps| == 0 then []
    else [if ps[0].id == id then ps[0].(name := name) else ps[0]] + Rename(ps[1..], id, name)
  }

  /** Position of the first entry with the given id, if any. */
  function IndexOf(ps: seq<PlayerData>, id: Id): (r: Option<nat>)
    ensures r.None? ==> forall i :: 0 <= i < |ps| ==> ps[i].id != id
    ensures r.Some? ==> r.value < |ps| && ps[r.value].id == id
    ensures r.Some? ==> forall i :: 0 <= i < r.value ==> ps[i].id != id
  {
    if |ps| == 0 then None
    else if ps[0].id == id then Some(0)
    else match IndexOf(ps[1..], id)
      case None => None
      case Some(k) => Some(k + 1)
  }

  // ---------------------------------------------------------------- totals

  /** The fold the application runs computes the reference sum. */
  lemma {:induction false} FoldTimeIsSum(ps: seq<PlayerData>, acc: int)
    ensures FoldTime(ps, acc) == acc + Sum(ps)
    decreases |ps|
  {
    if |ps| > 0 {
      FoldTimeIsSum(ps[1..], acc + ps[0].time);
    }
  }

  lemma TotalTimeIsSum(ps: seq<PlayerData>)
    ensures TotalTime(ps) == Sum(ps)
  {
    FoldTimeIsSum(ps, 0);
  }

  lemma {:induction false} SumAppend(a: seq<PlayerData>, b: seq<PlayerData>)
    ensures Sum(a + b) == Sum(a) + Sum(b)
    decreases |a|
  {
    if |a| == 0 {
      assert a + b == b;
    } else {
      assert (a + b)[1..] == a[1..] + b;
      SumAppend(a[1..], b);
    }
  }

  lemma {:induction false} SumNonNegative(ps: seq<PlayerData>)
    requires NonNegative(ps)
    ensures Sum(ps) >= 0
    decreases |ps|
  {
    if |ps| > 0 {
      SumNonNegative(ps[1..]);
    }
  }

  /** Replacing one entry changes the sum by exactly the difference of the two times. */
  lemma {:induction false} SumUpdate(ps: seq<PlayerData>, k: nat, q: PlayerData)
    requires k < |ps|
    ensures Sum(ps[k := q]) == Sum(ps) - ps[k].time + q.time
    decreases |ps|
  {
    if k > 0 {
      assert ps[k := q][1..] == ps[1..][k - 1 := q];
      SumUpdate(ps[1..], k - 1, q);
    } else {
      assert ps[k := q][1..] == ps[1..];
    }
  }

  // ---------------------------------------------------------------- default and add

  /** The default list is what four additions to an empty list produce. */
  lemma DefaultIsFourAdditions(ids: seq<Id>)
    requires |ids| == 4
    ensures DefaultPlayers(ids) == Append(Append(Append(Append([], ids[0]), ids[1]), ids[2]), ids[3])
  {
    var d := DefaultPlayers(ids);
    var a := Append(Append(Append(Append([], ids[0]), ids[1]), ids[2]), ids[3]);
    assert |a| == 4;
    forall i | 0 <= i < 4
      ensures d[i] == a[i]
    {
      assert d[i].id == ids[i];
    }
  }

  /** Distinct drawn ids give a list with distinct ids. */
  lemma DefaultDistinct(ids: seq<Id>)
    requires |ids| == 4
    requires forall i, j :: 0 <= i < j < 4 ==> ids[i] != ids[j]
    ensures DistinctIds(DefaultPlayers(ids))
  {
    var d := DefaultPlayers(ids);
    assert forall i :: 0 <= i < 4 ==> d[i].id == ids[i];
  }

  /** The default list has no time on it. */
  lemma DefaultZero(ids: seq<Id>)
    requires |ids| == 4
    ensures NonNegative(DefaultPlayers(ids)) && Sum(DefaultPlayers(ids)) == 0
  {
    var d := DefaultPlayers(ids);
    assert Sum(d) == d[0].time + Sum(d[1..]);
    assert Sum(d[1..]) == d[1].time + Sum(d[2..]);
    assert Sum(d[2..]) == d[2].time + Sum(d[3..]);
    assert Sum(d[3..]) == d[3].time + Sum(d[4..]);
  }

  /** A fresh id keeps the ids distinct; the new zeroed entry leaves the sum alone. */
  lemma AppendKeepsInvariants(ps: seq<PlayerData>, newId: Id)
    ensures DistinctIds(ps) && newId !in Ids(ps) ==> DistinctIds(Append(ps, newId))
    ensures NonNegative(ps) ==> NonNegative(Append(ps, newId))
    ensures Sum(Append(ps, newId)) == Sum(ps)
  {
    var r := Append(ps, newId);
    assert r == ps + [r[|ps|]];
    SumAppend(ps, [r[|ps|]]);
    assert Sum([r[|ps|]]) == 0;
    if DistinctIds(ps) && newId !in Ids(ps) {
      forall i, j | 0 <= i < j < |r|
        ensures r[i].id != r[j].id
      {
        if j == |ps| {
          assert Ids(ps)[i] == ps[i].id;
        } else {
          assert r[i] == ps[i] && r[j] == ps[j];
        }
      }
    }
  }

  // ---------------------------------------------------------------- remove

  /** The survivors are exactly the entries whose id differs from the removed one. */
  lemma {:induction false} RemoveMembers(ps: seq<PlayerData>, id: Id)
    ensures forall p :: p in Remove(ps, id) <==> p in ps && p.id != id
    decreases |ps|
  {
    if |ps| > 0 {
      RemoveMembers(ps[1..], id);
      assert ps == [ps[0]] + ps[1..];
    }
  }

  /** Removal distributes over concatenation: survivors keep their relative order. */
  lemma {:induction false} RemoveConcat(a: seq<PlayerData>, b: seq<PlayerData>, id: Id)
    ensures Remove(a + b, id) == Remove(a, id) + Remove(b, id)
    decreases |a|
  {
    if |a| == 0 {
      assert a + b == b;
    } else {
      assert (a + b)[1..] == a[1..] + b;
      RemoveConcat(a[1..], b, id);
    }
  }

  /** An id that is not present leaves the list unchanged. */
  lemma {:induction false} RemoveAbsent(ps: seq<PlayerData>, id: Id)
    requires id !in Ids(ps)
    ensures Remove(ps, id) == ps
    decreases |ps|
  {
    if |ps| > 0 {
      assert Ids(ps)[0] == ps[0].id;
      assert Ids(ps[1..]) == Ids(ps)[1..];
      RemoveAbsent(ps[1..], id);
      assert ps == [ps[0]] + ps[1..];
    }
  }

  /** With distinct ids, removal deletes exactly the one matching position. */
  lemma RemoveAt(ps: seq<PlayerData>, k: nat)
    requires DistinctIds(ps) && k < |ps|
    ensures Remove(ps, ps[k].id) == ps[..k] + ps[k + 1..]
  {
    OnlyOnce(ps, k);
    RemoveOnly(ps, k);
  }

  /** Removing the id of position k, when it occurs nowhere else, leaves the rest in order. */
  lemma RemoveOnly(ps: seq<PlayerData>, k: nat)
    requires k < |ps| && ps[k].id !in Ids(ps[..k]) && ps[k].id !in Ids(ps[k + 1..])
    ensures Remove(ps, ps[k].id) == ps[..k] + ps[k + 1..]
  {
    SplitAt(ps, k);
    RemoveSplice(ps[..k], ps[k], ps[k + 1..]);
  }

  /** A list is its part before k, its k-th entry and its part after k. */
  lemma SplitAt(ps: seq<PlayerData>, k: nat)
    requires k < |ps|
    ensures ps == ps[..k] + [ps[k]] + ps[k + 1..]
  {
  }

  /** Removing the id of an entry that occurs nowhere else closes the gap it leaves. */
  lemma RemoveSplice(a: seq<PlayerData>, x: PlayerData, b: seq<PlayerData>)
    requires x.id !in Ids(a) && x.id !in Ids(b)
    ensures Remove(a + [x] + b, x.id) == a + b
  {
    var id := x.id;
    assert [x][1..] == [];
    assert Remove([x], id) == [];
    RemoveAbsent(a, id);
    RemoveAbsent(b, id);
    RemoveConcat(a, [x], id);
    assert Remove(a + [x], id) == a;
    RemoveConcat(a + [x], b, id);
  }

  /** With distinct ids, the id at position k occurs neither before nor after it. */
  lemma OnlyOnce(ps: seq<PlayerData>, k: nat)
    requires DistinctIds(ps) && k < |ps|
    ensures ps[k].id !in Ids(ps[..k]) && ps[k].id !in Ids(ps[k + 1..])
  {
  }

  /** Removal keeps times non-negative and leaves no entry with the removed id. */
  lemma RemoveKeepsInvariants(ps: seq<PlayerData>, id: Id)
    ensures DistinctIds(ps) ==> DistinctIds(Remove(ps, id))
    ensures NonNegative(ps) ==> NonNegative(Remove(ps, id))
    ensures id !in Ids(Remove(ps, id))
  {
    var r := Remove(ps, id);
    RemoveMembers(ps, id);
    assert forall i :: 0 <= i < |r| ==> r[i] in r;
    if DistinctIds(ps) {
      RemoveDistinct(ps, id);
    }
  }

  /** Removal keeps ids distinct. */
  lemma {:induction false} RemoveDistinct(ps: seq<PlayerData>, id: Id)
    requires DistinctIds(ps)
    ensures DistinctIds(Remove(ps, id))
    decreases |ps|
  {
    if |ps| > 0 {
      RemoveDistinct(ps[1..], id);
      if ps[0].id != id {
        var t := Remove(ps[1..], id);
        RemoveMembers(ps[1..], id);
        ConsDistinct(ps[0], t, ps[1..]);
      }
    }
  }

  /** Putting in front an entry whose id no member of a sublist of the tail carries keeps ids distinct. */
  lemma ConsDistinct(p: PlayerData, t: seq<PlayerData>, tail: seq<PlayerData>)
    requires DistinctIds(t) && DistinctIds([p] + tail)
    requires forall q :: q in t ==> q in tail
    ensures DistinctIds([p] + t)
  {
    var r := [p] + t;
    forall i, j | 0 <= i < j < |r|
      ensures r[i].id != r[j].id
    {
      if i == 0 {
        assert r[0] == ([p] + tail)[0] && r[j] == t[j - 1] && t[j - 1] in t;
        var m :| 0 <= m < |tail| && tail[m] == t[j - 1];
        assert ([p] + tail)[m + 1] == r[j];
      } else {
        assert r[i] == t[i - 1] && r[j] == t[j - 1];
      }
    }
  }

  /** With distinct ids, the id at position k is found at position k. */
  lemma IndexOfDistinct(ps: seq<PlayerData>, k: nat)
    requires DistinctIds(ps) && k < |ps|
    ensures IndexOf(ps, ps[k].id) == Some(k)
  {
    assert Ids(ps)[k] == ps[k].id;
  }

  // ---------------------------------------------------------------- set-time and rename

  /** Setting the time of a present id moves the sum by exactly the change of that entry. */
  lemma SetTimeSum(ps: seq<PlayerData>, k: nat, t: int)
    requires DistinctIds(ps) && k < |ps|
    ensures SetTime(ps, ps[k].id, t) == ps[k := ps[k].(time := t)]
    ensures Sum(SetTime(ps, ps[k].id, t)) == Sum(ps) - ps[k].time + t
  {
    SumUpdate(ps, k, ps[k].(time := t));
  }

  /** Setting an entry to the time it already has, or naming an absent id, changes nothing. */
  lemma SetTimeNoChange(ps: seq<PlayerData>, id: Id, t: int)
    requires forall i :: 0 <= i < |ps| && ps[i].id == id ==> ps[i].time == t
    ensures SetTime(ps, id, t) == ps
  {
  }

  lemma SetTimeAbsent(ps: seq<PlayerData>, id: Id, t: int)
    requires id !in Ids(ps)
    ensures SetTime(ps, id, t) == ps
  {
    SetTimeNoChange(ps, id, t);
  }

  /** A later time update of the same id overrides an earlier one. */
  lemma {:induction false} SetTimeTwice(ps: seq<PlayerData>, id: Id, a: int, b: int)
    ensures SetTime(SetTime(ps, id, a), id, b) == SetTime(ps, id, b)
    decreases |ps|
  {
    if |ps| > 0 {
      SetTimeTwice(ps[1..], id, a, b);
      assert SetTime(ps, id, a)[1..] == SetTime(ps[1..], id, a);
    }
  }

  /** Setting a time keeps the ids; a non-negative time keeps all times non-negative. */
  lemma SetTimeKeepsInvariants(ps: seq<PlayerData>, id: Id, t: int)
    ensures DistinctIds(ps) ==> DistinctIds(SetTime(ps, id, t))
    ensures NonNegative(ps) && t >= 0 ==> NonNegative(SetTime(ps, id, t))
  {
  }

  /** Renaming keeps ids and times, so distinctness and non-negativity survive it. */
  lemma RenameKeepsInvariants(ps: seq<PlayerData>, id: Id, name: string)
    ensures DistinctIds(ps) ==> DistinctIds(Rename(ps, id, name))
    ensures NonNegative(ps) ==> NonNegative(Rename(ps, id, name))
  {
  }

  /** Renaming an absent id changes nothing. */
  lemma RenameAbsent(ps: seq<PlayerData>, id: Id, name: string)
    requires id !in Ids(ps)
    ensures Rename(ps, id, name) == ps
  {
    var r := Rename(ps, id, name);
    assert forall i :: 0 <= i < |ps| ==> ps[i].id != id;
    assert forall i :: 0 <= i < |ps| ==> r[i] == ps[i];
  }

  /** Renaming keeps the sum of the times. */
  lemma {:induction false} RenameSum(ps: seq<PlayerData>, id: Id, name: string)
    ensures Sum(Rename(ps, id, name)) == Sum(ps)
    decreases |ps|
  {
    if |ps| > 0 {
      RenameSum(ps[1..], id, name);
      assert Rename(ps, id, name)[1..] == Rename(ps[1..], id, name);
    }
  }
}

=== FILE: wrappers.dfy ===
/** The optional value used for "no active player" and "no such id". */
module Wrappers {

  datatype Option<+T> = None | Some(value: T)
}
